=== FILE: README.md ===
# Personal page effects: the logic inside `script.js`, modelled in Dafny

`script.js` drives a personal web page. It has a starfield background, CRT and
glitch effects, a Discord presence widget that polls a status service, and a
"performance mode" preference that turns the costly effects off. Most of the file
draws or changes the page. This project models the parts that compute something
and states what they compute:

- `duration.dfy` (module `Duration`) covers the widget's two clock texts.
  `formatTime` gives `M:SS` and `formatElapsed` gives `H:MM:SS` or `M:SS`. JavaScript's
  flooring division and sign-keeping `%` are written out. A reader turns a clock text
  back into seconds, so each formatter is proved to display the whole seconds of
  a non-negative input, with the field widths the source pads to.
- `discord.dfy` (module `Discord`) takes one parsed presence record. It derives the
  user panel (avatar URL, opacity, display name, status text, status colour), the
  Spotify panel (progress fraction clamped to [0, 1], current and total time) and
  the activity panel (the filter, the first listed entry, the three-way image URL,
  the elapsed time and its `formatElapsed` text). The class `DiscordStatus` models the per-key timer registry
  (`intervals`) and the update methods that use it. A ghost set `live` holds the
  handles the registry has started and not cleared. The invariant `Valid()` says
  that `live` is exactly the set of registered handles, so no timer leaks.
- `stars.dfy` (module `Stars`) covers the star records, `createStars`,
  `updateStar` (the depth update and recycling), the update pass of `animate`,
  and `setStarCount`. The class `Starfield` keeps `this.stars` as an array plus a
  count. Truncating the JavaScript array lowers the count in place, and
  `createStars` installs a new array.
- `performance.dfy` (module `Performance`) covers the stored flag under
  `"performance-mode"`, the start-up branch (opt-in modal or stored mode), the
  modal and toggle handlers, and `applyMode`. `applyMode` sets the decoration
  styles and, through `window.starfield`, the star count.
- `wrappers.dfy` (module `Wrappers`) defines `Option`, which stands for
  JavaScript's `null`/`undefined`.

Randomness, the clock and the viewport size are parameters. A star consumes four
`Math.random()` values (`StarDraw`), a recycled star two, and `now` is
`Date.now()`. The host's timer ids are a counter (`nextHandle`) that hands out
fresh positive handles.

Some behaviour of the code a reader may not expect:

- `setStarCount(n)` with `n` at least the current count regenerates the whole
  field. It does not append `n - count` new stars.
- A newly created star can have depth 0, because `Math.random() * 1500` can be 0.
  `init` runs the first frame of `animate` at once, so after construction every
  depth lies in (0, 1500]; `setStarCount` and `createStars` can again leave depth
  0 until the next frame. `InField` therefore allows 0, and `Advance` and `Tick`
  prove the stricter bound after a step.
- Applying the same mode twice gives the same styles and star count, but the
  second call still regenerates the stars: `setStarCount(400)` on 400 stars and
  `setStarCount(200)` on 200 stars both take the regenerating branch, since the
  count is not below the current one. Star positions are therefore not
  idempotent in either mode.

## Model

| member | source | states |
|---|---|---|
| `Duration.Digits` | script.js:310 | `toString` of a non-negative integer: at least one digit, only digits, and no leading zero unless the value is 0 |
| `Duration.ParseDigits` | script.js:310 | reading the decimal text of `n` gives back `n` |
| `Duration.PadStart2` | script.js:310 | `padStart(2, "0")`: length is max(2, length), the original text is a suffix, and only zeros are added in front |
| `Duration.JsIntString` | script.js:310 | `toString` of a possibly negative integer: the decimal digits of the magnitude, with "-" in front exactly when the value is negative |
| `Duration.FormatTime` | script.js:306-311 | no contract of its own; `FormatTimeReadsBack` states what its text means for ms ≥ 0 and `FormatTimeExample` gives a value |
| `Duration.FormatElapsedAsWritten` | script.js:313-322 | no contract of its own; `FormatElapsedReadsBack` states what its text means for ms ≥ 0, and `NegativeElapsedAsWritten` with `NegativeFields` what it gives for a negative one |
| `Duration.ElapsedClock` | script.js:314-321 | no contract of its own; the body of `formatElapsed` from the whole seconds on, read back by `ClockReadsBack` for a non-negative total and given by `NegativeElapsedAsWritten` for a total of -59 to -1 |
| `Duration.JsRem` | script.js:309 | JavaScript `%`: the remainder is strictly between -b and b and equals Euclidean `%` for a non-negative dividend; for a negative one it is 0 when b divides the dividend and the Euclidean remainder minus b otherwise, so it takes the dividend's sign |
| `Duration.FormatTimeReadsBack` | script.js:306-311 | for ms ≥ 0: exactly two fields; the minutes field is unpadded; the seconds field has two digits and is below 60; read in base 60 they give ms div 1000 |
| `Duration.FormatElapsedReadsBack` | script.js:313-322 | for ms ≥ 0: three fields iff ms div 1000 ≥ 3600, two otherwise; every field after the first has two digits and is below 60; the first is unpadded, and below 60 in the two-field form; read in base 60 they give ms div 1000 |
| `Duration.FormatTimeExample` | script.js:306-311 | 65000 ms gives "1:05" |
| `Duration.FormatElapsedHoursExample` | script.js:313-322 | 3725000 ms gives "1:02:05" |
| `Duration.FormatElapsedMinutesExample` | script.js:313-322 | 5000 ms gives "0:05" |
| `Duration.NegativeElapsedAsWritten` | script.js:313-322 | as written, a floored total of -59 to -1 seconds (a start up to 59 s in the future) gives "-1:-" followed by the seconds still to go, e.g. "-1:-5" |
| `Duration.NegativeFields` | script.js:319-321 | such a text splits with "-1" as its first field, which is not a digit field, so no valid clock field |
| `Duration.ElapsedText` | script.js:313-322 | the activity timer text clamped at zero: "0:00" for any elapsed time ≤ 0, and the `formatElapsed` text for any elapsed time ≥ 0 |
| `Duration.ElapsedTextReadsBack` | script.js:265-268 | the clamped timer text reads back as the whole seconds elapsed, and as 0 before the start |
| `Discord.StatusColor` | script.js:136-141 | a colour exists exactly for online, idle, dnd and offline |
| `Discord.StatusColorInjective` | script.js:136-141 | the four colours are distinct: each colour gives back its status |
| `Discord.DisplayName` | script.js:178 | `display_name || username`: the display name when it is present and non-empty, otherwise the username |
| `Discord.AvatarOpacity` | script.js:174 | "0.5" iff the status is offline, "1" otherwise |
| `Discord.UpperAscii` | script.js:182 | same length; each lowercase ASCII letter becomes its capital and other characters stay; no lowercase letter is left |
| `Discord.UserPanel` | script.js:166-186 | the user panel: the avatar URL is `AvatarUrl`, the CDN path of the user id and avatar hash; the name is `DisplayName`, the display name when truthy and the username otherwise; half opacity iff offline; the status text is the upper-cased status and the colour is the table colour of the status, present iff the status is one of the four known |
| `Discord.Fraction` | script.js:215-217 | progress lies in [0, 1]; it is 0 iff now ≤ start and 1 iff now ≥ end; in between, progress × duration = now − start |
| `Discord.FractionMonotone` | script.js:215-217 | the progress never decreases as `now` advances |
| `Discord.FractionSkewExample` | script.js:215-217 | with start T and end T+10000: 0 at T−500 (clock skew) and 1 at T+20000 |
| `Discord.SpotifyPanel` | script.js:206-222 | the panel shows song, artist and cover; progress exists iff end > start and then is exactly `Fraction(now, start, end)`, in [0, 1]; current time is `formatTime(max(0, now − start))` and total time is `formatTime(end − start)` |
| `Discord.FilterActivities` | script.js:229-231 | the result is no longer than the input, and an entry is in it iff it is in the input and is neither "Spotify" nor "Custom Status" and has type 0 or 4 |
| `Discord.FilterAppend` | script.js:229-231 | the filter distributes over concatenation, so it keeps the input order |
| `Discord.FilterExample` | script.js:229-231 | [Spotify, Custom Status, a playing game] filters to exactly [the game] |
| `Discord.SelectActivity` | script.js:247-252 | nothing is selected iff no entry is listed; otherwise the selection is the first listed entry of the input |
| `Discord.FirstListed` | script.js:252 | the head of the filtered list sits at some index of the input, and no earlier entry is listed |
| `Discord.ReplaceFirst` | script.js:296 | `replace` with a string pattern on a text that starts with the pattern swaps exactly that leading occurrence |
| `Discord.ReplaceFirstAbsent` | script.js:296 | a text in which the pattern does not occur is left unchanged |
| `Discord.ReplaceFirstAt` | script.js:296 | otherwise exactly the first occurrence of the pattern is replaced and the rest of the text is kept |
| `Discord.ImageUrl` | script.js:292-298 | three cases: an absent or empty image gives the app-icon URL; an `mp:external` image gives the media proxy plus the image without its leading "mp:"; any other image gives the app-asset CDN URL ending in ".png" |
| `Discord.ExternalImageRecovered` | script.js:295-296 | the proxy URL starts with the media base, and putting "mp:" back in front of the rest gives the original image |
| `Discord.ImageUrlNonEmpty` | script.js:257-263 | the large image URL is never empty, so the image is always shown |
| `Discord.ActivityPanel` | script.js:228-277 | hidden iff no entry is listed; otherwise it shows the first listed entry's name, state and large image, and carries an elapsed time iff that entry has a truthy start, that time being exactly `now` minus the start (negative for a start in the future) |
| `Discord.TimestampText` | script.js:265-268 | the timestamp text exists iff an elapsed time is shown and is `formatElapsed` of it as written, with no clamp; for an elapsed time ≥ 0 it reads back as its whole seconds |
| `Discord.DiscordStatus.constructor` | script.js:135 | the registry starts empty with nothing live |
| `Discord.DiscordStatus.ClearInterval` | script.js:329-335 | only `key` leaves the registry; its handle stops being live; when `key` is absent nothing changes; the invariant is kept |
| `Discord.DiscordStatus.SetInterval` | script.js:324-327 | the registry maps `key` to a fresh handle, which is live; the handle it replaced is no longer live; all other keys are unchanged; the invariant is kept |
| `Discord.DiscordStatus.Destroy` | script.js:337-340 | every registered handle is cleared, the registry is empty and nothing is live |
| `Discord.DiscordStatus.UpdateSpotify` | script.js:188-226 | the panel for the session, or hidden when there is no session or no container; a "spotify" timer exists iff the panel is shown; the previous one is no longer live; the handle counter never goes back; other keys keep their handles |
| `Discord.DiscordStatus.UpdateActivities` | script.js:228-277 | the activity panel, or hidden when there is no container; an "activity" timer exists iff an elapsed time is shown, under a handle that was not live before; the previous one is no longer live; other keys keep their handles |
| `Discord.DiscordStatus.UpdateStatus` | script.js:151-164 | a failed or unsuccessful fetch changes nothing; otherwise the user panel is rendered, the Spotify view is exactly `SpotifyPanel` (hidden without a payload or container), the activity view is exactly `ActivityPanel` (hidden without a container), a "spotify" timer exists iff the Spotify panel is shown and an "activity" timer iff an elapsed time is shown, the replaced "spotify" and "activity" timers are no longer live, and every other key keeps its handle |
| `Stars.Spread` | script.js:72-73 | a random value in [0, 1) scaled to a viewport extent lies within half the extent of the centre |
| `Stars.NewStar` | script.js:71-76 | a new star has depth in [0, 1500), speed in [1, 3), and x and y within half the viewport of the centre |
| `Stars.CreateStars` | script.js:70-77 | `createStars(count)` makes exactly `count` stars, each with depth and speed in range |
| `Stars.Advance` | script.js:79-87 | speed is unchanged; if the moved depth is positive it is z − speed and x, y stay; otherwise depth resets to exactly 1500 and x, y are redrawn; when z ≤ 1500 and speed > 0 the new depth lies in (0, 1500] and equals 1500 iff z − speed ≤ 0 |
| `Stars.AdvanceAll` | script.js:107-110 | one update pass keeps the star count, and every star in range ends with a positive depth |
| `Stars.Starfield.Generate` | script.js:70-77 | a fresh array holding exactly `createStars(n)` |
| `Stars.Starfield.constructor` | script.js:49-63 | the field is sized to the viewport and holds the 400 stars of `createStars(400)`, each advanced once by the first frame of `animate`, so every depth lies in (0, 1500] |
| `Stars.Starfield.ResizeCanvas` | script.js:65-68 | new width and height; stars are not touched |
| `Stars.Starfield.CreateStarsNow` | script.js:70-77 | the field is replaced by exactly `createStars(n)` |
| `Stars.Starfield.UpdateStar` | script.js:79-87 | star i becomes `Advance` of its old value; every other star is unchanged; the field invariant is kept |
| `Stars.Starfield.Tick` | script.js:107-110 | the stars become the update pass of the old stars, and every depth ends in (0, 1500] |
| `Stars.Starfield.SetStarCount` | script.js:115-121 | exactly `n` stars afterwards; a smaller `n` keeps the first `n` stars in the same array; otherwise the field is regenerated as `createStars(n)` |
| `Performance.StoredMode` | script.js:362-365 | null iff nothing is stored; otherwise true iff the stored text is exactly "true" |
| `Performance.StoredModeRoundTrip` | script.js:417-420 | what `setMode(b)` stores reads back as `b` |
| `Performance.OtherTextReadsFalse` | script.js:364 | any stored text other than "true" reads as false |
| `Performance.StarCount` | script.js:441-443 | the star count is at most 400, and below 400 exactly in performance mode |
| `Performance.Styled` | script.js:430-439 | missing elements stay missing; crt, scanline and bloom are hidden iff in performance mode; the container has no filter and no animation iff in performance mode |
| `Performance.StyledIdempotent` | script.js:422-439 | applying a mode twice gives the same styles as applying it once |
| `Performance.StyledLastWins` | script.js:422-439 | the styles depend only on the last mode applied |
| `Performance.PerformanceManager.constructor` | script.js:344-360 | the modal opens (and the content is hidden) iff nothing is stored, and then the starfield and its stars are untouched; otherwise the toggle reflects the stored mode and that mode is applied at once: the star count becomes 200 or 400, a smaller count keeps the first stars, a larger or equal one regenerates them with `createStars` |
| `Performance.PerformanceManager.ShowInitialModal` | script.js:367-395 | the modal is open and the content hidden; the mode and storage are unchanged |
| `Performance.PerformanceManager.CreateToggle` | script.js:397-415 | the checkbox is checked exactly in performance mode |
| `Performance.PerformanceManager.SetMode` | script.js:417-420 | the field holds the mode; storage maps the key to its text and reads back as the mode; no other key changes |
| `Performance.PerformanceManager.ApplyMode` | script.js:422-444 | the decoration styles for the current mode; with a starfield, its star count becomes 200 in performance mode and 400 otherwise, keeping the first stars when that is fewer than before and regenerating them with `createStars` otherwise; the canvas size is kept |
| `Performance.PerformanceManager.ChooseMode` | script.js:382-391 | a modal choice is stored under the key (no other key changes) and read back, the modal closes, the content shows, the toggle reflects the choice, and the mode is applied to the styles and the stars as in `ApplyMode` |
| `Performance.PerformanceManager.ToggleChanged` | script.js:409-412 | the new checkbox state is stored under the key (no other key changes) and applied to the styles and the stars as in `ApplyMode`; the modal and visibility are unchanged |
| `Performance.ReloadAfterChoice` | script.js:353-365 | with nothing stored the first start shows the modal; after a choice, a reload from the same storage shows no modal and restores the choice |

## Findings

| source | as written | input that shows it | evidently intended | confidence | as-written member | corrected member |
|---|---|---|---|---|---|---|
| script.js:265-268 | The activity timer passes now minus the start time to `formatElapsed` without clamping it. With a start time in the future (clock skew), the floored fields are negative. | an activity start 5000 ms after `now` gives "-1:-5"; any start from 1 ms to 59 s ahead gives "-1:-" and the remaining seconds | clamp at zero, as the Spotify progress does (script.js:216), showing "0:00" | medium; not executed | `Duration.NegativeElapsedAsWritten` | `Duration.ElapsedTextReadsBack` |

`FormatElapsedAsWritten` is `formatElapsed` exactly as written, and the activity
panel's timestamp (`Discord.TimestampText`) uses it, so the panel shows the
as-written text. `ElapsedText` is the clamped text the fix would show.

## Left out

- Canvas drawing: `drawStar`, the perspective projection, the fade fill, and `requestAnimationFrame` scheduling in `animate`. This is floating-point rendering into an opaque 2D context. Only the update pass of `animate` is modelled, as `Starfield.Tick`.
- `fetch`, JSON parsing, error logging and the 30-second poll of `updateStatus`. `UpdateStatus` takes the parsed record, or None for a failed or unsuccessful fetch.
- Timer scheduling and callbacks. Handles are plain numbers in the registry, and the 1-second ticks are not run. The tick's output at a given `now` is what `SpotifyPanel`, `ActivityPanel` and `TimestampText` compute.
- `Math.random`, `Date.now` and the window dimensions are parameters. `Tick` gives each star its own pair of recycling draws; the source draws them in order, only for stars that recycle.
- DOM querying and mutation: `CursorBlinker`, `GlitchEffect`, the modal and toggle markup, `createTimestampElement`, `hideElements`/`showElements` (modelled as the `contentVisible` flag), and the `App` lifecycle. These are page plumbing. Only the container's null check (`hasContainer`) is modelled; the null checks of the other panel elements are not.
- The CSS width string made from the progress fraction (script.js:219). This is float-to-string formatting.
- `Starfield.destroy` removes a different function from the resize listener it registered, so the listener stays. `DiscordStatus.destroy` never cancels the 30-second poll, whose handle is never stored. Neither teardown is part of this model.
- Discord.Fraction: exact reals instead of IEEE doubles. A track whose end is not after its start has no progress (None in `SpotifyPanel`). The source computes a width there anyway: a zero-length track shows "NaN%" up to its start and "100%" after it (`Math.min(1, Infinity)`), and a reversed track shows "0%" (from `-0`) up to its start and a negative width after it.
- Discord.UpperAscii: only ASCII letters are upper-cased, where `toUpperCase` maps all of Unicode.
- Discord.StatusColor: keys that a JavaScript object inherits (such as "toString") are not modelled; only the four table entries are.
- `smallImageUrl` is computed by the same `ImageUrl` and never used, so it is not part of `ActivityView`.
- The presence record has the Spotify payload exactly when `listening_to_spotify` is true. A true flag with a missing payload would throw inside `updateSpotify`; the surrounding `catch` logs that, and it is not modelled.

=== FILE: discord.dfy ===
/**
 * The presence widget (`DiscordStatus` in script.js): what it derives from one
 * parsed presence record (user panel, Spotify panel, activity panel) and the
 * per-key registry of ticking timers it keeps between polls.
 *
 * The presence record is an input (the fetch is not modelled); the clock is a
 * parameter `now` in milliseconds.
 */
module Discord {
  import opened Wrappers
  import Duration

  // ---------------------------------------------------------------------------
  // Presence record (the parsed `data.data`)

  datatype User = User(id: string, avatar: string, username: string, displayName: Option<string>)

  datatype Spotify = Spotify(song: string, artist: string, albumArtUrl: string, start: int, end: int)

  /** One entry of `activities`; `kind` is the record's `type` field. */
  datatype Activity = Activity(
    name: Option<string>,
    kind: int,
    state: Option<string>,
    applicationId: string,
    largeImage: Option<string>,
    smallImage: Option<string>,
    start: Option<int>)

  /** `spotify` is present exactly when `listening_to_spotify` is true. */
  datatype Presence = Presence(
    user: User,
    status: string,
    spotify: Option<Spotify>,
    activities: Option<seq<Activity>>)

  /** JavaScript truthiness of an optional string: absent and "" are both false. */
  predicate Truthy(s: Option<string>) { s.Some? && s.value != "" }

  /** `x || ""` for an optional string. */
  function OrEmpty(s: Option<string>): string { if Truthy(s) then s.value else "" }

  // ---------------------------------------------------------------------------
  // User panel (script.js:136-141, 166-186)

  const Statuses: set<string> := {"online", "idle", "dnd", "offline"}

  /** The `statusColors` table; an unknown status has no entry (`undefined`). */
  function StatusColor(status: string): (r: Option<string>)
    ensures r.Some? <==> status in Statuses
  {
    match status
    case "online" => Some("lime")
    case "idle" => Some("#ffac00")
    case "dnd" => Some("red")
    case "offline" => Some("#747f8d")
    case _ => None
  }

  /** The colour an inverse reading of the table gives back. */
  function StatusOfColor(color: string): Option<string>
  {
    match color
    case "lime" => Some("online")
    case "#ffac00" => Some("idle")
    case "red" => Some("dnd")
    case "#747f8d" => Some("offline")
    case _ => None
  }

  /** Distinct statuses get distinct colours: the colour tells the status back. */
  lemma StatusColorInjective(status: string)
    requires status in Statuses
    ensures StatusColor(status).Some? && StatusOfColor(StatusColor(status).value) == Some(status)
  {
  }

  /** `display_name || username`. */
  function DisplayName(u: User): (r: string)
    ensures Truthy(u.displayName) ==> r == u.displayName.value
    ensures !Truthy(u.displayName) ==> r == u.username
  {
    if Truthy(u.displayName) then u.displayName.value else u.username
  }

  /** The avatar is dimmed to half opacity exactly when the user is offline. */
  function AvatarOpacity(status: string): (r: string)
    ensures r == "0.5" <==> status == "offline"
    ensures r == "1" <==> status != "offline"
  {
    if status == "offline" then "0.5" else "1"
  }

  /** One character of `toUpperCase` on ASCII: a lower-case letter moves to its capital. */
  function UpperChar(c: char): (u: char)
    ensures 'a' <= c <= 'z' ==> u as int == c as int - 32 && 'A' <= u <= 'Z'
    ensures !('a' <= c <= 'z') ==> u == c
  {
    if 'a' <= c <= 'z' then (c as int - 32) as char else c
  }

  /** `toUpperCase` on ASCII letters (the statuses are ASCII). */
  function UpperAscii(s: string): (r: string)
    ensures |r| == |s|
    ensures forall i :: 0 <= i < |s| ==> r[i] == UpperChar(s[i])
    ensures forall i :: 0 <= i < |r| ==> !('a' <= r[i] <= 'z')
  {
    if s == [] then [] else [UpperChar(s[0])] + UpperAscii(s[1..])
  }

  datatype UserView = UserView(avatarUrl: string, opacity: string, name: string, statusText: string, statusColor: Option<string>)

  /** The CDN address of the avatar: the fixed avatars prefix, the user id, "/", the avatar hash. */
  function AvatarUrl(u: User): string
  {
    "https://cdn.discordapp.com/avatars/" + u.id + "/" + u.avatar
  }

  /** `updateUserInfo` with every element present. */
  function UserPanel(p: Presence): (v: UserView)
    ensures v.opacity == "0.5" <==> p.status == "offline"
    ensures v.statusColor.Some? <==> p.status in Statuses
    ensures v.statusText == UpperAscii(p.status)
    ensures v.statusColor == StatusColor(p.status)
    ensures v.avatarUrl == AvatarUrl(p.user)
    ensures v.name == DisplayName(p.user)
  {
    UserView(AvatarUrl(p.user), AvatarOpacity(p.status), DisplayName(p.user), UpperAscii(p.status), StatusColor(p.status))
  }

  // ---------------------------------------------------------------------------
  // Spotify panel (script.js:188-226)

  function Max(a: int, b: int): int { if a >= b then a else b }

  /**
   * The progress share over exact reals: the elapsed time (never below zero)
   * divided by the track length, capped at 1.
   */
  function Fraction(now: int, start: int, end: int): (r: real)
    requires start < end
    ensures 0.0 <= r <= 1.0
    ensures r == 0.0 <==> now <= start
    ensures r == 1.0 <==> now >= end
    ensures start < now < end ==> r * (end - start) as real == (now - start) as real
  {
    var elapsed := Max(0, now - start);
    var f := elapsed as real / (end - start) as real;
    if f < 1.0 then f else 1.0
  }

  /** The progress bar never moves backwards as the clock advances. */
  lemma FractionMonotone(now1: int, now2: int, start: int, end: int)
    requires start < end && now1 <= now2
    ensures Fraction(now1, start, end) <= Fraction(now2, start, end)
  {
    var d := (end - start) as real;
    var e1, e2 := Max(0, now1 - start) as real, Max(0, now2 - start) as real;
    assert e1 <= e2;
    assert e1 / d <= e2 / d by {
      assert e2 / d - e1 / d == (e2 - e1) / d;
    }
  }

  /** The clock-skew cases: before the start the bar is empty, past the end it is full. */
  lemma FractionSkewExample(t: int)
    ensures Fraction(t - 500, t, t + 10000) == 0.0
    ensures Fraction(t + 20000, t, t + 10000) == 1.0
  {
  }

  datatype SpotifyView =
    | SpotifyHidden
    | SpotifyShown(song: string, artist: string, cover: string, progress: Option<real>, current: string, total: string)

  /**
   * The panel for a listening session at time `now`. `progress` is None for a
   * track whose end is not after its start, where the source divides by a zero
   * or negative duration.
   */
  function SpotifyPanel(s: Spotify, now: int): (v: SpotifyView)
    ensures v.SpotifyShown? && v.song == s.song && v.artist == s.artist && v.cover == s.albumArtUrl
    ensures v.progress.Some? <==> s.start < s.end
    ensures v.progress.Some? ==> v.progress.value == Fraction(now, s.start, s.end)
    ensures v.progress.Some? ==> 0.0 <= v.progress.value <= 1.0
    ensures v.current == Duration.FormatTime(Max(0, now - s.start))
    ensures v.total == Duration.FormatTime(s.end - s.start)
  {
    SpotifyShown(
      s.song, s.artist, s.albumArtUrl,
      if s.start < s.end then Some(Fraction(now, s.start, s.end)) else None,
      Duration.FormatTime(Max(0, now - s.start)),
      Duration.FormatTime(s.end - s.start))
  }

  // ---------------------------------------------------------------------------
  // Activity panel (script.js:228-304)

  /** The filter of `updateActivities`: not Spotify, not a custom status, playing (0) or competing (4). */
  predicate Listed(a: Activity)
  {
    a.name != Some("Spotify") && a.name != Some("Custom Status") && (a.kind == 0 || a.kind == 4)
  }

  /** `activities.filter(Listed)`. */
  function FilterActivities(s: seq<Activity>): (r: seq<Activity>)
    ensures |r| <= |s|
    ensures forall a :: a in r <==> a in s && Listed(a)
  {
    if s == [] then []
    else if Listed(s[0]) then [s[0]] + FilterActivities(s[1..])
    else FilterActivities(s[1..])
  }

  /** The filter keeps relative order: filtering a concatenation concatenates the filtered parts. */
  lemma {:induction false} FilterAppend(s: seq<Activity>, t: seq<Activity>)
    ensures FilterActivities(s + t) == FilterActivities(s) + FilterActivities(t)
    decreases |s|
  {
    if s == [] {
      assert s + t == t;
    } else {
      assert (s + t)[0] == s[0];
      assert (s + t)[1..] == s[1..] + t;
      FilterAppend(s[1..], t);
    }
  }

  /** `activities[0]` of the filtered list, or nothing when it is empty. */
  function SelectActivity(s: seq<Activity>): (r: Option<Activity>)
    ensures r.None? <==> forall i :: 0 <= i < |s| ==> !Listed(s[i])
    ensures r.Some? ==> exists i :: (0 <= i < |s| && s[i] == r.value && Listed(s[i])
      && forall j :: 0 <= j < i ==> !Listed(s[j]))
  {
    var listed := FilterActivities(s);
    if listed == [] then
      assert forall i :: 0 <= i < |s| ==> !Listed(s[i]) by {
        forall i | 0 <= i < |s| ensures !Listed(s[i]) { assert s[i] in s; }
      }
      None
    else
      FirstListed(s);
      Some(listed[0])
  }

  /** The head of the filtered list is the first listed entry of the input. */
  lemma {:induction false} FirstListed(s: seq<Activity>)
    requires FilterActivities(s) != []
    ensures exists i :: (0 <= i < |s| && s[i] == FilterActivities(s)[0] && Listed(s[i])
      && forall j :: 0 <= j < i ==> !Listed(s[j]))
    decreases |s|
  {
    if !Listed(s[0]) {
      FirstListed(s[1..]);
      var i :| 0 <= i < |s[1..]| && s[1..][i] == FilterActivities(s[1..])[0] && Listed(s[1..][i])
        && forall j :: 0 <= j < i ==> !Listed(s[1..][j]);
      assert s[i + 1] == FilterActivities(s)[0];
      assert forall j :: 0 <= j < i + 1 ==> !Listed(s[j]) by {
        forall j | 0 <= j < i + 1 ensures !Listed(s[j]) {
          if j > 0 { assert s[j] == s[1..][j - 1]; }
        }
      }
    } else {
      assert s[0] == FilterActivities(s)[0];
    }
  }

  /** A list with a Spotify entry, a custom status and one game keeps only the game. */
  lemma FilterExample(spotify: Activity, custom: Activity, game: Activity)
    requires spotify.name == Some("Spotify") && custom.name == Some("Custom Status")
    requires game.name == Some("Minecraft") && game.kind == 0
    ensures FilterActivities([spotify, custom, game]) == [game]
  {
    assert [spotify, custom, game][1..] == [custom, game];
    assert [custom, game][1..] == [game];
    assert [game][1..] == [];
    assert Listed(game) && !Listed(spotify) && !Listed(custom);
    assert FilterActivities([game]) == [game];
    assert FilterActivities([custom, game]) == [game];
  }

  const IconBase := "https://dcdn.dstn.to/app-icons/"
  const MediaBase := "https://media.discordapp.net/"
  const AssetBase := "https://cdn.discordapp.com/app-assets/"
  const ExternalPrefix := "mp:external"

  predicate StartsWith(s: string, p: string) { |p| <= |s| && s[..|p|] == p }

  /** `s.replace(pat, rep)` with a string pattern: only the first occurrence is replaced. */
  function ReplaceFirst(s: string, pat: string, rep: string): (r: string)
    requires pat != []
    ensures StartsWith(s, pat) ==> r == rep + s[|pat|..]
    decreases |s|
  {
    if |s| < |pat| then s
    else if s[..|pat|] == pat then rep + s[|pat|..]
    else [s[0]] + ReplaceFirst(s[1..], pat, rep)
  }

  predicate OccursAt(s: string, pat: string, i: int)
  {
    0 <= i && i + |pat| <= |s| && s[i..i + |pat|] == pat
  }

  lemma OccursShift(s: string, pat: string, i: int)
    requires |s| >= 1 && i >= 1
    ensures OccursAt(s, pat, i) <==> OccursAt(s[1..], pat, i - 1)
  {
    if i + |pat| <= |s| {
      assert s[1..][i - 1..] == s[i..];
      assert s[i..i + |pat|] == s[i..][..|pat|];
      assert s[1..][i - 1..i - 1 + |pat|] == s[1..][i - 1..][..|pat|];
    }
  }

  /** `ReplaceFirst` leaves a text without the pattern unchanged. */
  lemma {:induction false} ReplaceFirstAbsent(s: string, pat: string, rep: string)
    requires pat != []
    requires forall i :: !OccursAt(s, pat, i)
    ensures ReplaceFirst(s, pat, rep) == s
    decreases |s|
  {
    if |s| >= |pat| {
      assert !OccursAt(s, pat, 0);
      var t := s[1..];
      forall i ensures !OccursAt(t, pat, i) {
        if i >= 0 { OccursShift(s, pat, i + 1); }
      }
      ReplaceFirstAbsent(t, pat, rep);
      assert [s[0]] + t == s;
    }
  }

  /** `ReplaceFirst` replaces the first occurrence of the pattern, and only that one. */
  lemma {:induction false} ReplaceFirstAt(s: string, pat: string, rep: string, i: int)
    requires pat != []
    requires OccursAt(s, pat, i) && forall j :: 0 <= j < i ==> !OccursAt(s, pat, j)
    ensures ReplaceFirst(s, pat, rep) == s[..i] + rep + s[i + |pat|..]
    decreases |s|
  {
    if i == 0 {
      assert s[..|pat|] == pat && s[..0] + rep + s[|pat|..] == rep + s[|pat|..];
    } else {
      assert !OccursAt(s, pat, 0);
      assert |s| >= |pat| && s[..|pat|] != pat;
      var t := s[1..];
      assert ReplaceFirst(s, pat, rep) == [s[0]] + ReplaceFirst(t, pat, rep);
      OccursShift(s, pat, i);
      forall j | 0 <= j < i - 1 ensures !OccursAt(t, pat, j) {
        OccursShift(s, pat, j + 1);
      }
      ReplaceFirstAt(t, pat, rep, i - 1);
      assert [s[0]] + t[..i - 1] == s[..i];
      assert t[i - 1 + |pat|..] == s[i + |pat|..];
    }
  }

  /** `getImageUrl(image, applicationId)`. */
  function ImageUrl(image: Option<string>, appId: string): (r: string)
    ensures !Truthy(image) ==> r == IconBase + appId
    ensures Truthy(image) && StartsWith(image.value, ExternalPrefix) ==> r == MediaBase + image.value[3..]
    ensures Truthy(image) && !StartsWith(image.value, ExternalPrefix) ==> r == AssetBase + appId + "/" + image.value + ".png"
  {
    if !Truthy(image) then IconBase + appId
    else if StartsWith(image.value, ExternalPrefix) then MediaBase + ReplaceFirst(image.value, "mp:", "")
    else AssetBase + appId + "/" + image.value + ".png"
  }

  /** An external image is recovered from its proxy URL by putting back the "mp:" it lost. */
  lemma ExternalImageRecovered(image: string, appId: string)
    requires StartsWith(image, ExternalPrefix)
    ensures var r := ImageUrl(Some(image), appId);
      StartsWith(r, MediaBase) && "mp:" + r[|MediaBase|..] == image
  {
    var r := ImageUrl(Some(image), appId);
    assert r == MediaBase + image[3..];
    assert r[|MediaBase|..] == image[3..];
    assert image[..3] == "mp:" by { assert image[..11] == ExternalPrefix; }
    assert "mp:" + image[3..] == image;
  }

  /** Every image URL is non-empty, so the large image is always shown (script.js:258). */
  lemma ImageUrlNonEmpty(image: Option<string>, appId: string)
    ensures |ImageUrl(image, appId)| > 0
  {
  }

  datatype ActivityView =
    | ActivityHidden
    | ActivityShown(name: string, state: string, imageUrl: string, elapsed: Option<int>)

  /** `activity.timestamps?.start` is truthy: present and non-zero. */
  predicate Ticking(a: Activity) { a.start.Some? && a.start.value != 0 }

  /**
   * The activity panel at time `now`: hidden when no entry is listed, otherwise
   * the first listed entry, its large image, and an elapsed-time text when it has
   * a start time.
   */
  function ActivityPanel(p: Presence, now: int): (v: ActivityView)
    ensures var s := if p.activities.Some? then p.activities.value else [];
      (v.ActivityHidden? <==> forall i :: 0 <= i < |s| ==> !Listed(s[i]))
      && (v.ActivityShown? ==> SelectActivity(s).Some? && var a := SelectActivity(s).value;
            Listed(a) && v.name == OrEmpty(a.name) && v.state == OrEmpty(a.state)
            && v.imageUrl == ImageUrl(a.largeImage, a.applicationId)
            && (v.elapsed.Some? <==> Ticking(a))
            && (Ticking(a) ==> v.elapsed == Some(now - a.start.value)))
  {
    var s := if p.activities.Some? then p.activities.value else [];
    match SelectActivity(s)
    case None => ActivityHidden
    case Some(a) =>
      ActivityShown(
        OrEmpty(a.name), OrEmpty(a.state),
        ImageUrl(a.largeImage, a.applicationId),
        if Ticking(a) then Some(now - a.start.value) else None)
  }

  /**
   * The text of the timestamp element: `formatElapsed` of the elapsed
   * milliseconds, as written (no clamp at zero).
   */
  function TimestampText(v: ActivityView): (t: Option<string>)
    ensures t.Some? <==> v.ActivityShown? && v.elapsed.Some?
    ensures t.Some? ==> t.value == Duration.FormatElapsedAsWritten(v.elapsed.value)
    ensures t.Some? && v.elapsed.value >= 0 ==>
      var f := Duration.Split(t.value);
      Duration.AllDigitFields(f) && Duration.ClockValue(f) == v.elapsed.value / 1000
  {
    if v.ActivityShown? && v.elapsed.Some? then
      var ms := v.elapsed.value;
      if ms >= 0 then Duration.FormatElapsedReadsBack(ms); Some(Duration.FormatElapsedAsWritten(ms))
      else Some(Duration.FormatElapsedAsWritten(ms))
    else None
  }

  lemma ValuesInsert(m: map<string, nat>, k: string, v: nat)
    requires k !in m
    ensures m[k := v].Values == m.Values + {v}
  {
    var m' := m[k := v];
    forall g | g in m.Values ensures g in m'.Values {
      var j :| j in m && m[j] == g;
      assert m'[j] == g;
    }
    assert m'[k] == v;
  }

  // ---------------------------------------------------------------------------
  // The component with its timer registry (script.js:131-164, 324-340)

  /**
   * The per-key timer registry. `intervals` is the `Map` from key to the host's
   * timer handle; `live` is the set of handles this registry has started and not
   * yet cleared (the host's running timers that it owns); `nextHandle` stands for
   * the host's allocation of fresh, positive timer ids.
   */
  class DiscordStatus {
    var intervals: map<string, nat>
    ghost var live: set<nat>
    var nextHandle: nat

    /** Every registered handle is live and every live handle is registered (no leak). */
    ghost predicate Valid()
      reads this
    {
      nextHandle >= 1
      && (forall k :: k in intervals ==> 0 < intervals[k] < nextHandle)
      && (forall k1, k2 :: k1 in intervals && k2 in intervals && k1 != k2 ==> intervals[k1] != intervals[k2])
      && live == intervals.Values
    }

    constructor ()
      ensures Valid() && intervals == map[] && live == {}
    {
      intervals := map[];
      live := {};
      nextHandle := 1;
    }

    /** `clearInterval(key)`: stops and forgets the timer under `key`; nothing else changes. */
    method ClearInterval(key: string)
      requires Valid()
      modifies this
      ensures Valid() && nextHandle == old(nextHandle)
      ensures intervals == old(intervals) - {key}
      ensures live == if key in old(intervals) then old(live) - {old(intervals)[key]} else old(live)
    {
      if key in intervals {
        var interval := intervals[key];
        live := live - {interval};
        intervals := intervals - {key};
        assert live == intervals.Values by {
          forall h | h in live ensures h in intervals.Values {
            var k :| k in old(intervals) && old(intervals)[k] == h;
            assert k != key;
            assert intervals[k] == h;
          }
        }
      }
    }

    /**
     * `setInterval(key, ...)`: clears any timer under `key`, then registers a
     * fresh one; the replaced handle is no longer live.
     */
    method SetInterval(key: string) returns (h: nat)
      requires Valid()
      modifies this
      ensures Valid()
      ensures intervals == old(intervals)[key := h]
      ensures h == old(nextHandle) && nextHandle == old(nextHandle) + 1
      ensures h !in old(live) && h in live
      ensures key in old(intervals) ==> old(intervals)[key] !in live
      ensures live == (if key in old(intervals) then old(live) - {old(intervals)[key]} else old(live)) + {h}
    {
      ClearInterval(key);
      ghost var cleared := intervals;
      h := nextHandle;
      nextHandle := nextHandle + 1;
      live := live + {h};
      intervals := intervals[key := h];
      ValuesInsert(cleared, key, h);
    }

    /** `destroy()`: clears every registered timer, then empties the registry. */
    method Destroy()
      requires Valid()
      modifies this
      ensures Valid()
      ensures intervals == map[] && live == {}
      ensures nextHandle == old(nextHandle)
    {
      var keys := intervals.Keys;
      while keys != {}
        invariant keys <= intervals.Keys
        invariant intervals == old(intervals) && nextHandle == old(nextHandle)
        invariant live == set k | k in keys :: intervals[k]
        decreases keys
      {
        var k :| k in keys;
        live := live - {intervals[k]};
        keys := keys - {k};
      }
      intervals := map[];
    }

    /**
     * `updateSpotify`: the old "spotify" timer is always cleared; a new one is
     * started exactly when a session is shown.
     */
    method UpdateSpotify(p: Presence, now: int, hasContainer: bool) returns (v: SpotifyView)
      requires Valid()
      modifies this
      ensures Valid()
      ensures v == if p.spotify.Some? && hasContainer then SpotifyPanel(p.spotify.value, now) else SpotifyHidden
      ensures ("spotify" in intervals) <==> v.SpotifyShown?
      ensures "spotify" in old(intervals) ==> old(intervals)["spotify"] !in live
      ensures nextHandle >= old(nextHandle)
      ensures forall k :: k != "spotify" ==> (k in intervals <==> k in old(intervals))
      ensures forall k :: k != "spotify" && k in intervals ==> intervals[k] == old(intervals)[k]
    {
      ClearInterval("spotify");
      if p.spotify.None? || !hasContainer {
        v := SpotifyHidden;
        return;
      }
      v := SpotifyPanel(p.spotify.value, now);
      var _ := SetInterval("spotify");
    }

    /**
     * `updateActivities`: the old "activity" timer is always cleared; a new one is
     * started exactly when the shown activity has a start time.
     */
    method UpdateActivities(p: Presence, now: int, hasContainer: bool) returns (v: ActivityView)
      requires Valid()
      modifies this
      ensures Valid()
      ensures v == if hasContainer then ActivityPanel(p, now) else ActivityHidden
      ensures ("activity" in intervals) <==> v.ActivityShown? && v.elapsed.Some?
      ensures "activity" in old(intervals) ==> old(intervals)["activity"] !in live
      ensures "activity" in intervals ==> intervals["activity"] !in old(live) && intervals["activity"] >= old(nextHandle)
      ensures forall k :: k != "activity" ==> (k in intervals <==> k in old(intervals))
      ensures forall k :: k != "activity" && k in intervals ==> intervals[k] == old(intervals)[k]
    {
      ClearInterval("activity");
      if !hasContainer {
        v := ActivityHidden;
        return;
      }
      v := ActivityPanel(p, now);
      if v.ActivityShown? && v.elapsed.Some? {
        var _ := SetInterval("activity");
      }
    }

    /**
     * `updateStatus` after the fetch: `response` is None when the request failed
     * or `success` was false, and then nothing changes.
     */
    method UpdateStatus(response: Option<Presence>, now: int, hasSpotifyContainer: bool, hasActivitiesContainer: bool)
      returns (user: Option<UserView>, spotify: SpotifyView, activity: ActivityView)
      requires Valid()
      modifies this
      ensures Valid()
      ensures response.None? ==>
        intervals == old(intervals) && live == old(live)
        && user.None? && spotify.SpotifyHidden? && activity.ActivityHidden?
      ensures response.Some? ==> user == Some(UserPanel(response.value))
      ensures response.Some? ==>
        spotify == if response.value.spotify.Some? && hasSpotifyContainer then SpotifyPanel(response.value.spotify.value, now) else SpotifyHidden
      ensures response.Some? ==> activity == if hasActivitiesContainer then ActivityPanel(response.value, now) else ActivityHidden
      ensures ("spotify" in intervals) <==> if response.Some? then spotify.SpotifyShown? else "spotify" in old(intervals)
      ensures ("activity" in intervals) <==>
        if response.Some? then activity.ActivityShown? && activity.elapsed.Some? else "activity" in old(intervals)
      ensures forall k :: k != "spotify" && k != "activity" ==> (k in intervals <==> k in old(intervals))
      ensures forall k :: k != "spotify" && k != "activity" && k in intervals ==> intervals[k] == old(intervals)[k]
      ensures response.Some? && "spotify" in old(intervals) ==> old(intervals)["spotify"] !in live
      ensures response.Some? && "activity" in old(intervals) ==> old(intervals)["activity"] !in live
    {
      user, spotify, activity := None, SpotifyHidden, ActivityHidden;
      if response.Some? {
        var p := response.value;
        user := Some(UserPanel(p));
        spotify := UpdateSpotify(p, now, hasSpotifyContainer);
        activity := UpdateActivities(p, now, hasActivitiesContainer);
      }
    }
  }
}

=== FILE: duration.dfy ===
/**
 * The presence widget's clock texts: `formatTime` (M:SS, used for the Spotify
 * progress) and `formatElapsed` (H:MM:SS or M:SS, used for the activity timer),
 * together with the decimal helpers they rely on and a reader that turns a clock
 * text back into a number of seconds, used to state what the texts mean.
 *
 * JavaScript numbers are modelled as `int` (milliseconds are whole numbers).
 * `Math.floor(a / b)` with `b > 0` is Dafny's `/` (Euclidean division equals
 * flooring for a positive divisor); JavaScript's `%` takes the sign of the
 * dividend and is modelled by `JsRem`.
 */
module Duration {

  // ---------------------------------------------------------------------------
  // Decimal text

  predicate IsDigit(c: char) { '0' <= c <= '9' }

  predicate AllDigits(s: string) { forall i :: 0 <= i < |s| ==> IsDigit(s[i]) }

  function DigitChar(d: nat): (c: char)
    requires d < 10
    ensures IsDigit(c) && c as int - '0' as int == d
  {
    ('0' as int + d) as char
  }

  function DigitValue(c: char): nat
    requires IsDigit(c)
  {
    c as int - '0' as int
  }

  /** `n.toString()` for a non-negative integer: shortest decimal, no leading zero. */
  function Digits(n: nat): (s: string)
    ensures |s| >= 1 && AllDigits(s)
    ensures s[0] == '0' ==> n == 0
    decreases n
  {
    if n < 10 then [DigitChar(n)] else Digits(n / 10) + [DigitChar(n % 10)]
  }

  /** Value of a decimal digit string (the empty string reads as 0). */
  function ParseNat(s: string): nat
    requires AllDigits(s)
  {
    if s == [] then 0 else ParseNat(s[..|s| - 1]) * 10 + DigitValue(s[|s| - 1])
  }

  lemma {:induction false} ParseDigits(n: nat)
    ensures ParseNat(Digits(n)) == n
    decreases n
  {
    if n >= 10 {
      var s := Digits(n);
      assert s[..|s| - 1] == Digits(n / 10);
      ParseDigits(n / 10);
    }
  }

  /** A leading '0' does not change the value read. */
  lemma {:induction false} ParseLeadingZero(s: string)
    requires AllDigits(s)
    ensures AllDigits(['0'] + s) && ParseNat(['0'] + s) == ParseNat(s)
    decreases |s|
  {
    if s != [] {
      var t := ['0'] + s;
      assert t[..|t| - 1] == ['0'] + s[..|s| - 1];
      ParseLeadingZero(s[..|s| - 1]);
    }
  }

  /** `n.toString()` for any integer: a '-' before the digits of `|n|` when negative. */
  function JsIntString(n: int): (s: string)
    ensures n >= 0 ==> s == Digits(n)
    ensures n < 0 ==> s == "-" + Digits(-n)
  {
    if n < 0 then "-" + Digits(-n) else Digits(n)
  }

  /** `s.padStart(2, "0")`: zeros in front up to length 2; longer strings unchanged. */
  function PadStart2(s: string): (r: string)
    ensures |r| == if |s| >= 2 then |s| else 2
    ensures r[|r| - |s|..] == s
    ensures forall i :: 0 <= i < |r| - |s| ==> r[i] == '0'
  {
    if |s| >= 2 then s else if |s| == 1 then ['0'] + s else "00"
  }

  /** JavaScript `a % b` for `b > 0`: the remainder has the sign of `a`. */
  function JsRem(a: int, b: int): (r: int)
    requires b > 0
    ensures -b < r < b
    ensures a >= 0 ==> r == a % b
    ensures a < 0 ==> r <= 0 && r == if a % b == 0 then 0 else a % b - b
  {
    if a >= 0 then a % b else NegativeRemainder(a, b); -((-a) % b)
  }

  /** Euclidean division is determined by any quotient and remainder in range. */
  lemma ModUnique(a: int, b: int, m: int, r: int)
    requires b > 0 && 0 <= r < b && a == b * m + r
    ensures a % b == r
  {
    var d := m - a / b;
    assert b * d == a % b - r;
    assert b * (1 - d) == b - b * d && b * (d + 1) == b * d + b;
    PositiveFactor(b, 1 - d);
    PositiveFactor(b, d + 1);
  }

  lemma PositiveFactor(x: int, y: int)
    requires x > 0 && x * y > 0
    ensures y > 0
  {
  }

  /** The truncated remainder of a negative dividend in terms of the Euclidean one. */
  lemma NegativeRemainder(a: int, b: int)
    requires a < 0 && b > 0
    ensures -((-a) % b) == if a % b == 0 then 0 else a % b - b
  {
    var k, q := (-a) / b, (-a) % b;
    assert -a == b * k + q;
    if q == 0 {
      assert a == b * (-k) + 0;
      ModUnique(a, b, -k, 0);
    } else {
      assert a == b * (-k - 1) + (b - q);
      ModUnique(a, b, -k - 1, b - q);
    }
  }

  // ---------------------------------------------------------------------------
  // The two formatters (script.js:306-322)

  /** A seconds or minutes field: the integer's text padded to two characters. */
  function Field(n: int): string
  {
    PadStart2(JsIntString(n))
  }

  /** `formatTime(ms)`: whole minutes, a colon, seconds padded to two characters. */
  function FormatTime(ms: int): string
  {
    var total := ms / 1000;
    JsIntString(total / 60) + ":" + Field(JsRem(total, 60))
  }

  /**
   * `formatElapsed(ms)` exactly as written: an hours field only when the
   * floored hour count is positive. For a negative `ms` the fields come out
   * negative; see `ElapsedText` for the clamped form the widget should show.
   */
  function FormatElapsedAsWritten(ms: int): string
  {
    ElapsedClock(ms / 1000)
  }

  /** The body of `formatElapsed` once `total` (whole seconds) is computed. */
  function ElapsedClock(total: int): string
  {
    var hours := total / 3600;
    var minutes := JsRem(total, 3600) / 60;
    var seconds := JsRem(total, 60);
    if hours > 0 then
      JsIntString(hours) + ":" + Field(minutes) + ":" + Field(seconds)
    else
      JsIntString(minutes) + ":" + Field(seconds)
  }

  /**
   * The activity timer's text with the elapsed time clamped at zero, as the
   * Spotify progress already does with `Math.max(0, ...)`.
   */
  function ElapsedText(ms: int): (r: string)
    ensures ms <= 0 ==> r == "0:00"
    ensures ms >= 0 ==> r == FormatElapsedAsWritten(ms)
  {
    if ms <= 0 then ZeroElapsed(); "0:00" else FormatElapsedAsWritten(ms)
  }

  lemma ZeroElapsed()
    ensures FormatElapsedAsWritten(0) == "0:00"
  {
    assert 0 / 1000 == 0;
    assert JsIntString(0) == "0" && Field(0) == "00";
    assert ElapsedClock(0) == "0:00";
  }

  // ---------------------------------------------------------------------------
  // Reading a clock text back

  /** Split a text at every ':' (as `s.split(":")`). */
  function Split(s: string): (r: seq<string>)
    ensures |r| >= 1
  {
    if |s| == 0 then [""]
    else if s[0] == ':' then [""] + Split(s[1..])
    else var t := Split(s[1..]); [[s[0]] + t[0]] + t[1..]
  }

  predicate AllDigitFields(f: seq<string>) { forall i :: 0 <= i < |f| ==> AllDigits(f[i]) }

  /** Fields read in base 60, most significant first: [h, mm, ss] is h*3600 + mm*60 + ss. */
  function ClockValue(f: seq<string>): nat
    requires AllDigitFields(f)
  {
    if f == [] then 0 else ClockValue(f[..|f| - 1]) * 60 + ParseNat(f[|f| - 1])
  }

  /**
   * The shape of a clock text: digit fields, the first without a superfluous
   * leading zero, every later one two digits below 60.
   */
  predicate WellFormedClock(f: seq<string>)
  {
    |f| >= 1 && AllDigitFields(f) && Unpadded(f[0]) && forall i :: 1 <= i < |f| ==> Sexagesimal(f[i])
  }

  /** A field with no superfluous leading zero. */
  predicate Unpadded(s: string) { AllDigits(s) && s == Digits(ParseNat(s)) }

  /** A two-character field holding a value below 60. */
  predicate Sexagesimal(s: string) { AllDigits(s) && |s| == 2 && ParseNat(s) < 60 }

  lemma {:induction false} SplitPrefix(a: string, b: string)
    requires ':' !in a
    ensures Split(a + b) == [a + Split(b)[0]] + Split(b)[1..]
    decreases |a|
  {
    if a != [] {
      assert (a + b)[1..] == a[1..] + b;
      SplitPrefix(a[1..], b);
      assert [a[0]] + (a[1..] + Split(b)[0]) == a + Split(b)[0];
    } else {
      assert a + b == b;
      assert a + Split(b)[0] == Split(b)[0];
      assert [Split(b)[0]] + Split(b)[1..] == Split(b);
    }
  }

  lemma SplitField(a: string, b: string)
    requires ':' !in a
    ensures Split(a + ":" + b) == [a] + Split(b)
  {
    assert a + ":" + b == a + (":" + b);
    SplitPrefix(a, ":" + b);
    var c := ":" + b;
    assert c[0] == ':' && c[1..] == b;
    assert Split(c) == [""] + Split(b);
    assert a + Split(c)[0] == a;
  }

  lemma SplitLast(a: string)
    requires ':' !in a
    ensures Split(a) == [a]
  {
    SplitPrefix(a, "");
    assert a + "" == a;
  }

  lemma DigitsNoColon(s: string)
    requires AllDigits(s)
    ensures ':' !in s
  {
    assert forall i :: 0 <= i < |s| ==> s[i] != ':';
  }

  /** The two-character seconds (or minutes) field of a value below 60. */
  lemma Pad2Field(n: nat)
    requires n < 60
    ensures Sexagesimal(Field(n)) && ParseNat(Field(n)) == n
  {
    var d := Digits(n);
    ParseDigits(n);
    if n < 10 {
      assert |d| == 1;
      ParseLeadingZero(d);
      assert PadStart2(d) == ['0'] + d;
    } else {
      assert Digits(n / 10) == [DigitChar(n / 10)];
      assert |d| == 2;
    }
  }

  lemma UnpaddedDigits(n: nat)
    ensures Unpadded(Digits(n))
  {
    ParseDigits(n);
  }

  lemma DivModSixty(t: nat, q: nat, r: nat)
    requires t == 60 * q + r && r < 60
    ensures t / 60 == q && t % 60 == r
  {
  }

  lemma SixtyDecomposition(t: nat)
    ensures t == ((t / 3600) * 60 + (t % 3600) / 60) * 60 + t % 60
    ensures (t % 3600) % 60 == t % 60
  {
    var h, r := t / 3600, t % 3600;
    var m, s := r / 60, r % 60;
    assert t == 3600 * h + r && r < 3600;
    assert r == 60 * m + s && s < 60;
    assert t == 60 * (60 * h + m) + s;
    DivModSixty(t, 60 * h + m, s);
  }

  /**
   * `formatTime` for a non-negative duration: two fields; the first is the
   * whole minutes without padding, the second two digits below 60; read back
   * in base 60 they give the whole seconds of the input.
   */
  lemma FormatTimeReadsBack(ms: nat)
    ensures var f := Split(FormatTime(ms));
      |f| == 2 && AllDigitFields(f) && Unpadded(f[0]) && Sexagesimal(f[1])
      && ClockValue(f) == ms / 1000
  {
    var t: nat := ms / 1000;
    var m, s := t / 60, t % 60;
    var a, b := Digits(m), Field(s);
    assert FormatTime(ms) == a + ":" + b;
    Pad2Field(s);
    DigitsNoColon(a);
    DigitsNoColon(b);
    SplitField(a, b);
    SplitLast(b);
    var f := Split(FormatTime(ms));
    assert f == [a, b];
    UnpaddedDigits(m);
    ParseDigits(m);
    assert f[..1] == [a];
    assert ClockValue([a]) == ParseNat(a) by { assert [a][..0] == []; }
    assert t == m * 60 + s;
  }

  /** The text `FormatElapsedAsWritten` builds, in terms of the floored fields. */
  lemma ElapsedText3(t: nat)
    requires t >= 3600
    ensures ElapsedClock(t) == Digits(t / 3600) + ":" + Field((t % 3600) / 60) + ":" + Field(t % 60)
  {
  }

  lemma ElapsedText2(t: nat)
    requires t < 3600
    ensures ElapsedClock(t) == Digits(t / 60) + ":" + Field(t % 60)
  {
    assert t / 3600 == 0 && t % 3600 == t;
  }

  lemma SplitThree(a: string, b: string, c: string)
    requires AllDigits(a) && AllDigits(b) && AllDigits(c)
    ensures Split(a + ":" + b + ":" + c) == [a, b, c]
  {
    DigitsNoColon(a);
    DigitsNoColon(b);
    DigitsNoColon(c);
    assert a + ":" + b + ":" + c == a + ":" + (b + ":" + c);
    SplitLast(c);
    SplitField(b, c);
    SplitField(a, b + ":" + c);
  }

  lemma SplitTwo(a: string, b: string)
    requires AllDigits(a) && AllDigits(b)
    ensures Split(a + ":" + b) == [a, b]
  {
    DigitsNoColon(a);
    DigitsNoColon(b);
    SplitLast(b);
    SplitField(a, b);
  }

  lemma ClockValue2(a: string, b: string)
    requires AllDigits(a) && AllDigits(b)
    ensures AllDigitFields([a, b]) && ClockValue([a, b]) == ParseNat(a) * 60 + ParseNat(b)
  {
    assert [a, b][..1] == [a];
    assert [a][..0] == [];
    assert ClockValue([a]) == ParseNat(a);
  }

  lemma ClockValue3(a: string, b: string, c: string)
    requires AllDigits(a) && AllDigits(b) && AllDigits(c)
    ensures AllDigitFields([a, b, c])
    ensures ClockValue([a, b, c]) == (ParseNat(a) * 60 + ParseNat(b)) * 60 + ParseNat(c)
  {
    assert [a, b, c][..2] == [a, b];
    ClockValue2(a, b);
  }

  /**
   * `formatElapsed` for a non-negative duration: an hours field exactly when at
   * least 3600 whole seconds have passed; every field after the first is two
   * digits below 60; the first is unpadded (so minutes are padded only in the
   * hours form), and below 60 when there is no hours field; read back in base 60
   * the fields give the whole seconds of the input.
   */
  lemma FormatElapsedReadsBack(ms: nat)
    ensures var f := Split(FormatElapsedAsWritten(ms));
      (|f| == 2 || |f| == 3) && (|f| == 3 <==> ms / 1000 >= 3600)
      && WellFormedClock(f)
      && (|f| == 2 ==> ParseNat(f[0]) < 60)
      && ClockValue(f) == ms / 1000
  {
    var t: nat := ms / 1000;
    assert FormatElapsedAsWritten(ms) == ElapsedClock(t);
    ClockReadsBack(t);
  }

  /** The clock text of a non-negative number of seconds reads back to that number. */
  lemma ClockReadsBack(t: nat)
    ensures var f := Split(ElapsedClock(t));
      (|f| == 2 || |f| == 3) && (|f| == 3 <==> t >= 3600)
      && WellFormedClock(f)
      && (|f| == 2 ==> ParseNat(f[0]) < 60)
      && ClockValue(f) == t
  {
    if t >= 3600 {
      HoursFields(t);
    } else {
      MinutesFields(t);
    }
  }

  lemma ClockFields3(h: nat, m: nat, s: nat)
    requires m < 60 && s < 60
    ensures var f := Split(Digits(h) + ":" + Field(m) + ":" + Field(s));
      |f| == 3 && WellFormedClock(f) && ClockValue(f) == (h * 60 + m) * 60 + s
  {
    var a, b, c := Digits(h), Field(m), Field(s);
    SplitThree(a, b, c);
    FieldsShape3(h, m, s);
    Pad2Field(m);
    Pad2Field(s);
    ParseDigits(h);
    ClockValue3(a, b, c);
  }

  lemma FieldsShape3(h: nat, m: nat, s: nat)
    requires m < 60 && s < 60
    ensures WellFormedClock([Digits(h), Field(m), Field(s)])
  {
    var f := [Digits(h), Field(m), Field(s)];
    Pad2Field(m);
    Pad2Field(s);
    UnpaddedDigits(h);
    assert AllDigitFields(f);
    assert forall i :: 1 <= i < |f| ==> Sexagesimal(f[i]) by {
      forall i | 1 <= i < |f| ensures Sexagesimal(f[i]) {
        if i == 1 { assert f[i] == Field(m); } else { assert f[i] == Field(s); }
      }
    }
  }

  lemma ClockFields2(m: nat, s: nat)
    requires s < 60
    ensures var f := Split(Digits(m) + ":" + Field(s));
      |f| == 2 && WellFormedClock(f) && ParseNat(f[0]) == m && ClockValue(f) == m * 60 + s
  {
    var a, b := Digits(m), Field(s);
    Pad2Field(s);
    SplitTwo(a, b);
    UnpaddedDigits(m);
    ParseDigits(m);
    ClockValue2(a, b);
  }

  lemma HoursFields(t: nat)
    requires t >= 3600
    ensures var f := Split(ElapsedClock(t));
      |f| == 3 && WellFormedClock(f) && ClockValue(f) == t
  {
    var h, m, s := t / 3600, (t % 3600) / 60, t % 60;
    ElapsedText3(t);
    SixtyDecomposition(t);
    ClockFields3(h, m, s);
  }

  lemma MinutesFields(t: nat)
    requires t < 3600
    ensures var f := Split(ElapsedClock(t));
      |f| == 2 && WellFormedClock(f) && ParseNat(f[0]) < 60 && ClockValue(f) == t
  {
    var m, s := t / 60, t % 60;
    assert t == m * 60 + s && m < 60;
    ElapsedText2(t);
    ClockFields2(m, s);
  }

  /** The corrected timer text reads back as the whole seconds elapsed, never negative. */
  lemma ElapsedTextReadsBack(ms: int)
    ensures var f := Split(ElapsedText(ms));
      AllDigitFields(f) && ClockValue(f) == (if ms < 0 then 0 else ms / 1000)
  {
    if ms <= 0 {
      ZeroElapsed();
      FormatElapsedReadsBack(0);
    } else {
      FormatElapsedReadsBack(ms);
    }
  }

  /** The worked examples of the widget's clock texts. */
  lemma FormatTimeExample()
    ensures FormatTime(65000) == "1:05"
  {
    assert 65000 / 1000 == 65 && 65 / 60 == 1 && JsRem(65, 60) == 5;
    assert JsIntString(1) == "1" && JsIntString(5) == "5";
    assert PadStart2("5") == "05";
  }

  lemma FormatElapsedHoursExample()
    ensures FormatElapsedAsWritten(3725000) == "1:02:05"
  {
    assert 3725000 / 1000 == 3725;
    assert 3725 / 3600 == 1 && 3725 % 3600 == 125 && 125 / 60 == 2 && 3725 % 60 == 5;
    ElapsedText3(3725);
    assert Digits(1) == "1" && Field(2) == "02" && Field(5) == "05";
  }

  lemma FormatElapsedMinutesExample()
    ensures FormatElapsedAsWritten(5000) == "0:05"
  {
    assert 5000 / 1000 == 5;
    assert 5 / 60 == 0 && 5 % 60 == 5;
    ElapsedText2(5);
    assert Digits(0) == "0" && Field(5) == "05";
  }

  /**
   * `formatElapsed` as written, once the elapsed milliseconds have been floored
   * to a total of -59 to -1 seconds (an activity whose start lies up to 59 s in
   * the future): hours and minutes both come out as -1 and the seconds keep their
   * sign, so the text is "-1:-" followed by the seconds still to go ("-1:-5" for
   * 5 s). `ElapsedText` shows "0:00" there.
   */
  lemma NegativeElapsedAsWritten(t: int)
    requires -59 <= t <= -1
    ensures ElapsedClock(t) == "-1:-" + Digits(-t)
  {
    var d := Digits(-t);
    assert "-1" + ":" + ("-" + d) == "-1:-" + d;
    assert t / 3600 == -1 && t / 60 == -1;
    assert JsRem(t, 3600) == t && JsRem(t, 60) == t;
    assert JsIntString(-1) == "-1" by { assert Digits(1) == "1"; }
    assert Field(t) == "-" + Digits(-t) by { assert |JsIntString(t)| >= 2; }
  }

  /** A text starting "-1:" has "-1" as its first field: not a digit field, so no valid clock field. */
  lemma NegativeFields(d: string)
    ensures Split("-1:-" + d)[0] == "-1"
    ensures !AllDigits(Split("-1:-" + d)[0])
  {
    var a, b := "-1", "-" + d;
    assert a + ":" + b == "-1:-" + d;
    assert ':' !in a;
    SplitField(a, b);
    assert Split(a + ":" + b)[0] == a && !IsDigit(a[0]);
  }
}

=== FILE: performance.dfy ===
/**
 * The performance preference (`PerformanceManager` in script.js): the stored
 * flag, the start-up choice between the opt-in modal and the stored mode, and
 * what applying a mode does to the decoration elements and the star count.
 *
 * `localStorage` is the map `storage`; the page elements the mode touches are
 * the record `Decor`, where None stands for an element missing from the page.
 */
module Performance {
  import opened Wrappers
  import Stars

  const StorageKey := "performance-mode"

  /** Star count in performance mode (script.js:442). */
  const ReducedCount: nat := 200

  /** `enabled.toString()`. */
  function BoolText(b: bool): string { if b then "true" else "false" }

  /** `getStoredMode()`: null when nothing is stored, otherwise whether the text is exactly "true". */
  function StoredMode(storage: map<string, string>): (r: Option<bool>)
    ensures r.None? <==> StorageKey !in storage
    ensures r.Some? ==> (r.value <==> storage[StorageKey] == "true")
  {
    if StorageKey !in storage then None else Some(storage[StorageKey] == "true")
  }

  /** What `setMode(b)` stores, `getStoredMode()` reads back as `b`. */
  lemma StoredModeRoundTrip(storage: map<string, string>, b: bool)
    ensures StoredMode(storage[StorageKey := BoolText(b)]) == Some(b)
  {
  }

  /** Any stored text other than "true" reads as false. */
  lemma OtherTextReadsFalse(storage: map<string, string>)
    requires StorageKey in storage && storage[StorageKey] != "true"
    ensures StoredMode(storage) == Some(false)
  {
  }

  /** The star count `applyMode` asks for: reduced exactly in performance mode. */
  function StarCount(performance: bool): (n: nat)
    ensures n <= Stars.DefaultCount
    ensures n < Stars.DefaultCount <==> performance
  {
    if performance then ReducedCount else Stars.DefaultCount
  }

  datatype ContainerStyle = ContainerStyle(filter: string, animation: string)

  /** Inline styles of `.crt`, `.retro-scanline`, `.bloom-container` and `#container`. */
  datatype Decor = Decor(
    crt: Option<string>,
    scanline: Option<string>,
    bloom: Option<string>,
    container: Option<ContainerStyle>)

  const FullFilter := "blur(0.5px) brightness(1.1)"
  const FullAnimation := "chromaticMove 50ms infinite alternate"

  function Display(performance: bool): string { if performance then "none" else "block" }

  function SetDisplay(e: Option<string>, performance: bool): Option<string>
  {
    if e.Some? then Some(Display(performance)) else None
  }

  /**
   * The style part of `applyMode`: missing elements stay missing; present
   * decorations are hidden exactly in performance mode; the container loses its
   * filter and animation exactly in performance mode.
   */
  function Styled(d: Decor, performance: bool): (r: Decor)
    ensures r.crt.Some? == d.crt.Some? && r.scanline.Some? == d.scanline.Some?
    ensures r.bloom.Some? == d.bloom.Some? && r.container.Some? == d.container.Some?
    ensures r.crt.Some? ==> (r.crt.value == "none" <==> performance)
    ensures r.scanline.Some? ==> (r.scanline.value == "none" <==> performance)
    ensures r.bloom.Some? ==> (r.bloom.value == "none" <==> performance)
    ensures r.container.Some? ==>
      (r.container.value.filter == "none" <==> performance)
      && (r.container.value.animation == "none" <==> performance)
  {
    Decor(
      SetDisplay(d.crt, performance),
      SetDisplay(d.scanline, performance),
      SetDisplay(d.bloom, performance),
      if d.container.Some? then
        Some(if performance then ContainerStyle("none", "none") else ContainerStyle(FullFilter, FullAnimation))
      else None)
  }

  /** Applying a mode twice leaves the same styles as applying it once. */
  lemma StyledIdempotent(d: Decor, performance: bool)
    ensures Styled(Styled(d, performance), performance) == Styled(d, performance)
  {
  }

  /** Only the last mode applied matters. */
  lemma StyledLastWins(d: Decor, earlier: bool, performance: bool)
    ensures Styled(Styled(d, earlier), performance) == Styled(d, performance)
  {
  }

  /**
   * The manager. `storage` is `localStorage`; `modalOpen` is whether the opt-in
   * modal is in the page; `contentVisible` is the visibility of `#container` and
   * `#starfield`; `toggle` is the checked state of the toggle control, None
   * before it is built; `starfield` is `window.starfield` (null when the page has
   * no starfield).
   */
  class PerformanceManager {
    var storage: map<string, string>
    var isPerformanceMode: Option<bool>
    var modalOpen: bool
    var contentVisible: bool
    var toggle: Option<bool>
    var decor: Decor
    const starfield: Stars.Starfield?

    /**
     * `new PerformanceManager()`: reads the stored mode; with nothing stored it
     * opens the modal and hides the content, otherwise it builds the toggle and
     * applies the stored mode at once.
     */
    constructor (storage: map<string, string>, decor: Decor, starfield: Stars.Starfield?, draws: seq<Stars.StarDraw>)
      requires starfield != null ==> starfield.Valid()
      requires |draws| >= Stars.DefaultCount && Stars.UnitDraws(draws)
      modifies starfield
      ensures this.storage == storage && this.starfield == starfield
      ensures isPerformanceMode == StoredMode(storage)
      ensures modalOpen <==> StoredMode(storage).None?
      ensures modalOpen ==> !contentVisible && toggle.None? && this.decor == decor
      ensures !modalOpen ==>
        contentVisible && toggle == isPerformanceMode
        && this.decor == Styled(decor, isPerformanceMode == Some(true))
      ensures starfield != null ==> starfield.Valid()
      ensures starfield != null && modalOpen ==> unchanged(starfield) && starfield.stars[..] == old(starfield.stars[..])
      ensures starfield != null && !modalOpen ==> starfield.count == StarCount(isPerformanceMode == Some(true))
      ensures starfield != null && !modalOpen ==>
        starfield.width == old(starfield.width) && starfield.height == old(starfield.height)
      ensures starfield != null && !modalOpen && StarCount(isPerformanceMode == Some(true)) < old(starfield.count) ==>
        starfield.Stars() == old(starfield.Stars())[..StarCount(isPerformanceMode == Some(true))]
      ensures starfield != null && !modalOpen && StarCount(isPerformanceMode == Some(true)) >= old(starfield.count) ==>
        starfield.Stars() == Stars.CreateStars(StarCount(isPerformanceMode == Some(true)), starfield.width, starfield.height, draws)
    {
      this.storage := storage;
      this.decor := decor;
      this.starfield := starfield;
      isPerformanceMode := StoredMode(storage);
      modalOpen := false;
      contentVisible := true;
      toggle := None;
      new;
      if isPerformanceMode.None? {
        ShowInitialModal();
      } else {
        CreateToggle();
        ApplyMode(draws);
      }
    }

    /** `showInitialModal`: the modal is added and the content hidden. */
    method ShowInitialModal()
      modifies this
      ensures modalOpen && !contentVisible
      ensures storage == old(storage) && isPerformanceMode == old(isPerformanceMode)
      ensures toggle == old(toggle) && decor == old(decor)
    {
      modalOpen := true;
      contentVisible := false;
    }

    /** `createToggle`: the checkbox starts checked exactly in performance mode. */
    method CreateToggle()
      modifies this
      ensures toggle == Some(isPerformanceMode == Some(true))
      ensures storage == old(storage) && isPerformanceMode == old(isPerformanceMode)
      ensures modalOpen == old(modalOpen) && contentVisible == old(contentVisible) && decor == old(decor)
    {
      toggle := Some(isPerformanceMode == Some(true));
    }

    /** `setMode(enabled)`: the field and the stored text; no other key changes. */
    method SetMode(enabled: bool)
      modifies this
      ensures isPerformanceMode == Some(enabled)
      ensures storage == old(storage)[StorageKey := BoolText(enabled)]
      ensures StoredMode(storage) == Some(enabled)
      ensures forall k :: k != StorageKey ==> (k in storage <==> k in old(storage))
      ensures modalOpen == old(modalOpen) && contentVisible == old(contentVisible)
      ensures toggle == old(toggle) && decor == old(decor)
    {
      isPerformanceMode := Some(enabled);
      storage := storage[StorageKey := BoolText(enabled)];
      StoredModeRoundTrip(old(storage), enabled);
    }

    /**
     * `applyMode`: the decoration styles for the current mode and, when there is a
     * starfield, its star count (200 in performance mode, 400 otherwise). A mode
     * that is still null applies as full effects, as JavaScript reads null as false.
     */
    method ApplyMode(draws: seq<Stars.StarDraw>)
      requires starfield != null ==> starfield.Valid()
      requires |draws| >= Stars.DefaultCount && Stars.UnitDraws(draws)
      modifies this, starfield
      ensures decor == Styled(old(decor), isPerformanceMode == Some(true))
      ensures storage == old(storage) && isPerformanceMode == old(isPerformanceMode)
      ensures modalOpen == old(modalOpen) && contentVisible == old(contentVisible) && toggle == old(toggle)
      ensures starfield != null ==> starfield.Valid() && starfield.count == StarCount(isPerformanceMode == Some(true))
      ensures starfield != null ==>
        starfield.width == old(starfield.width) && starfield.height == old(starfield.height)
      ensures starfield != null && StarCount(isPerformanceMode == Some(true)) < old(starfield.count) ==>
        starfield.Stars() == old(starfield.Stars())[..StarCount(isPerformanceMode == Some(true))]
      ensures starfield != null && StarCount(isPerformanceMode == Some(true)) >= old(starfield.count) ==>
        starfield.Stars() == Stars.CreateStars(StarCount(isPerformanceMode == Some(true)), starfield.width, starfield.height, draws)
    {
      var on := isPerformanceMode == Some(true);
      decor := Styled(decor, on);
      if starfield != null {
        starfield.SetStarCount(StarCount(on), draws);
      }
    }

    /** A click on one of the modal's buttons: store the choice, close the modal, show the page, apply. */
    method ChooseMode(enabled: bool, draws: seq<Stars.StarDraw>)
      requires modalOpen
      requires starfield != null ==> starfield.Valid()
      requires |draws| >= Stars.DefaultCount && Stars.UnitDraws(draws)
      modifies this, starfield
      ensures !modalOpen && contentVisible
      ensures StoredMode(storage) == Some(enabled) && isPerformanceMode == Some(enabled)
      ensures storage == old(storage)[StorageKey := BoolText(enabled)]
      ensures toggle == Some(enabled)
      ensures decor == Styled(old(decor), enabled)
      ensures starfield != null ==> starfield.Valid() && starfield.count == StarCount(enabled)
      ensures starfield != null ==>
        starfield.width == old(starfield.width) && starfield.height == old(starfield.height)
      ensures starfield != null && StarCount(enabled) < old(starfield.count) ==>
        starfield.Stars() == old(starfield.Stars())[..StarCount(enabled)]
      ensures starfield != null && StarCount(enabled) >= old(starfield.count) ==>
        starfield.Stars() == Stars.CreateStars(StarCount(enabled), starfield.width, starfield.height, draws)
    {
      SetMode(enabled);
      modalOpen := false;
      contentVisible := true;
      CreateToggle();
      ApplyMode(draws);
    }

    /** A change of the toggle's checkbox: store the new state and apply it. */
    method ToggleChanged(checked: bool, draws: seq<Stars.StarDraw>)
      requires toggle.Some?
      requires starfield != null ==> starfield.Valid()
      requires |draws| >= Stars.DefaultCount && Stars.UnitDraws(draws)
      modifies this, starfield
      ensures StoredMode(storage) == Some(checked) && isPerformanceMode == Some(checked)
      ensures storage == old(storage)[StorageKey := BoolText(checked)]
      ensures toggle == Some(checked)
      ensures decor == Styled(old(decor), checked)
      ensures modalOpen == old(modalOpen) && contentVisible == old(contentVisible)
      ensures starfield != null ==> starfield.Valid() && starfield.count == StarCount(checked)
      ensures starfield != null ==>
        starfield.width == old(starfield.width) && starfield.height == old(starfield.height)
      ensures starfield != null && StarCount(checked) < old(starfield.count) ==>
        starfield.Stars() == old(starfield.Stars())[..StarCount(checked)]
      ensures starfield != null && StarCount(checked) >= old(starfield.count) ==>
        starfield.Stars() == Stars.CreateStars(StarCount(checked), starfield.width, starfield.height, draws)
    {
      toggle := Some(checked);
      SetMode(checked);
      ApplyMode(draws);
    }
  }

  /**
   * With nothing stored the first visit shows the modal; once a choice is made a
   * reload with the same storage shows none and applies the chosen mode.
   */
  method ReloadAfterChoice(storage: map<string, string>, decor: Decor, enabled: bool)
    returns (firstShowsModal: bool, reloadShowsModal: bool, reloadMode: Option<bool>)
    requires StorageKey !in storage
    ensures firstShowsModal && !reloadShowsModal && reloadMode == Some(enabled)
  {
    var first := new PerformanceManager(storage, decor, null, seq(Stars.DefaultCount, _ => Stars.StarDraw(0.0, 0.0, 0.0, 0.0)));
    firstShowsModal := first.modalOpen;
    first.ChooseMode(enabled, seq(Stars.DefaultCount, _ => Stars.StarDraw(0.0, 0.0, 0.0, 0.0)));
    var reloaded := new PerformanceManager(first.storage, decor, null, seq(Stars.DefaultCount, _ => Stars.StarDraw(0.0, 0.0, 0.0, 0.0)));
    reloadShowsModal := reloaded.modalOpen;
    reloadMode := reloaded.isPerformanceMode;
  }
}

=== FILE: stars.dfy ===
/**
 * The starfield background (`Starfield` in script.js): the particle records,
 * their creation, the per-frame depth update and the particle-count control.
 *
 * JavaScript doubles are modelled as exact reals. Every `Math.random()` value the
 * code draws is passed in; a value in [0, 1) is `Unit`.
 */
module Stars {

  /** Depth at which a star is (re)born (script.js:74, 83). */
  const MaxDepth: real := 1500.0

  /** Particle count the field starts with (script.js:60). */
  const DefaultCount: nat := 400

  datatype Star = Star(x: real, y: real, z: real, speed: real)

  /** The four `Math.random()` values one new star consumes, in source order. */
  datatype StarDraw = StarDraw(rx: real, ry: real, rz: real, rs: real)

  predicate Unit(r: real) { 0.0 <= r < 1.0 }

  predicate UnitDraw(d: StarDraw) { Unit(d.rx) && Unit(d.ry) && Unit(d.rz) && Unit(d.rs) }

  predicate UnitDraws(draws: seq<StarDraw>) { forall i :: 0 <= i < |draws| ==> UnitDraw(draws[i]) }

  predicate UnitPairs(rs: seq<(real, real)>) { forall i :: 0 <= i < |rs| ==> Unit(rs[i].0) && Unit(rs[i].1) }

  /** A star the field can hold: depth within [0, MaxDepth] and speed within [1, 3). */
  predicate InField(s: Star) { 0.0 <= s.z <= MaxDepth && 1.0 <= s.speed < 3.0 }

  lemma ScaleWithin(r: real, e: real)
    requires Unit(r) && e >= 0.0
    ensures 0.0 <= r * e <= e
    ensures e > 0.0 ==> r * e < e
  {
    assert e - r * e == (1.0 - r) * e;
    assert (1.0 - r) * e >= 0.0;
    if e > 0.0 {
      assert (1.0 - r) * e > 0.0;
    }
  }

  /** `Math.random() * extent - extent / 2`: a coordinate centred on the viewport. */
  function Spread(r: real, extent: nat): (c: real)
    ensures Unit(r) ==> -(extent as real) / 2.0 <= c <= (extent as real) / 2.0
    ensures Unit(r) && extent > 0 ==> c < (extent as real) / 2.0
  {
    var e := extent as real;
    if Unit(r) then ScaleWithin(r, e); r * e - e / 2.0 else r * e - e / 2.0
  }

  /** One element of `createStars`: depth in [0, 1500), speed in [1, 3). */
  function NewStar(d: StarDraw, width: nat, height: nat): (s: Star)
    ensures UnitDraw(d) ==> InField(s) && s.z < MaxDepth
    ensures UnitDraw(d) ==> -(width as real) / 2.0 <= s.x <= (width as real) / 2.0
    ensures UnitDraw(d) ==> -(height as real) / 2.0 <= s.y <= (height as real) / 2.0
  {
    Star(Spread(d.rx, width), Spread(d.ry, height), d.rz * MaxDepth, 1.0 + d.rs * 2.0)
  }

  /** `createStars(count)`: `count` new stars, the i-th made from the i-th draw. */
  function CreateStars(count: nat, width: nat, height: nat, draws: seq<StarDraw>): (r: seq<Star>)
    requires |draws| >= count
    ensures |r| == count
    ensures UnitDraws(draws) ==> forall i :: 0 <= i < count ==> InField(r[i])
  {
    seq(count, i requires 0 <= i < count => NewStar(draws[i], width, height))
  }

  /**
   * `updateStar`: the star moves `speed` closer; once its depth reaches zero or
   * below it is recycled at exactly MaxDepth at a new position (`rx`, `ry` are
   * the two draws the recycling consumes).
   */
  function Advance(s: Star, rx: real, ry: real, width: nat, height: nat): (r: Star)
    ensures r.speed == s.speed
    ensures s.z - s.speed > 0.0 ==> r.z == s.z - s.speed && r.x == s.x && r.y == s.y
    ensures s.z - s.speed <= 0.0 ==> r.z == MaxDepth && r.x == Spread(rx, width) && r.y == Spread(ry, height)
    ensures s.z <= MaxDepth && s.speed > 0.0 ==>
      0.0 < r.z <= MaxDepth && (r.z == MaxDepth <==> s.z - s.speed <= 0.0)
    ensures InField(s) ==> InField(r) && r.z > 0.0
  {
    var moved := s.(z := s.z - s.speed);
    if moved.z <= 0.0 then moved.(z := MaxDepth, x := Spread(rx, width), y := Spread(ry, height)) else moved
  }

  /** The stars after one update pass over all of them. */
  function AdvanceAll(s: seq<Star>, resets: seq<(real, real)>, width: nat, height: nat): (r: seq<Star>)
    requires |resets| >= |s|
    ensures |r| == |s|
    ensures forall i :: 0 <= i < |s| && InField(s[i]) ==> InField(r[i]) && r[i].z > 0.0
  {
    seq(|s|, i requires 0 <= i < |s| => Advance(s[i], resets[i].0, resets[i].1, width, height))
  }

  /**
   * The particle field. `stars[..count]` is the JavaScript array `this.stars`:
   * truncating it (`this.stars.length = n`) lowers `count` in place, and
   * `createStars` installs a new array.
   */
  class Starfield {
    var width: nat
    var height: nat
    var stars: array<Star>
    var count: nat

    ghost predicate Valid()
      reads this, stars
    {
      count <= stars.Length && forall i :: 0 <= i < count ==> InField(stars[i])
    }

    ghost function Stars(): seq<Star>
      reads this, stars
      requires count <= stars.Length
    {
      stars[..count]
    }

    /** Builds the array `createStars` assigns. */
    static method Generate(n: nat, width: nat, height: nat, draws: seq<StarDraw>) returns (a: array<Star>)
      requires |draws| >= n
      ensures fresh(a) && a[..] == CreateStars(n, width, height, draws)
    {
      a := new Star[n];
      for i := 0 to n
        invariant forall j :: 0 <= j < i ==> a[j] == NewStar(draws[j], width, height)
      {
        a[i] := NewStar(draws[i], width, height);
      }
    }

    /**
     * `new Starfield(...)`: size to the viewport, then 400 stars, then the first
     * frame of `animate`, which advances every star once (`resets` are the
     * recycling draws of that frame).
     */
    constructor (width: nat, height: nat, draws: seq<StarDraw>, resets: seq<(real, real)>)
      requires |draws| >= DefaultCount && UnitDraws(draws)
      requires |resets| >= DefaultCount && UnitPairs(resets)
      ensures Valid() && fresh(stars)
      ensures this.width == width && this.height == height
      ensures Stars() == AdvanceAll(CreateStars(DefaultCount, width, height, draws), resets, width, height)
      ensures forall i :: 0 <= i < count ==> 0.0 < stars[i].z <= MaxDepth
    {
      this.width := width;
      this.height := height;
      var a := Generate(DefaultCount, width, height, draws);
      stars := a;
      count := DefaultCount;
      new;
      Tick(resets);
    }

    /** `resizeCanvas`: the new viewport size; existing stars are not rescaled. */
    method ResizeCanvas(width: nat, height: nat)
      modifies this
      ensures this.width == width && this.height == height
      ensures stars == old(stars) && count == old(count)
    {
      this.width := width;
      this.height := height;
    }

    /** `createStars(n)`: replaces the whole field with `n` new stars. */
    method CreateStarsNow(n: nat, draws: seq<StarDraw>)
      requires |draws| >= n && UnitDraws(draws)
      modifies this
      ensures Valid() && fresh(stars) && count == n
      ensures width == old(width) && height == old(height)
      ensures Stars() == CreateStars(n, width, height, draws)
    {
      stars := Generate(n, width, height, draws);
      count := n;
    }

    /** `updateStar(stars[i])`, the recycling draws being `rx` and `ry`. */
    method UpdateStar(i: nat, rx: real, ry: real)
      requires Valid() && i < count && Unit(rx) && Unit(ry)
      modifies stars
      ensures Valid()
      ensures stars[i] == Advance(old(stars[i]), rx, ry, width, height)
      ensures forall j :: 0 <= j < stars.Length && j != i ==> stars[j] == old(stars[j])
    {
      var s := stars[i];
      s := s.(z := s.z - s.speed);
      if s.z <= 0.0 {
        s := s.(z := MaxDepth, x := Spread(rx, width), y := Spread(ry, height));
      }
      stars[i] := s;
    }

    /**
     * The update half of `animate`: every star is advanced once; afterwards every
     * depth lies in (0, MaxDepth].
     */
    method Tick(resets: seq<(real, real)>)
      requires Valid() && |resets| >= count && UnitPairs(resets)
      modifies stars
      ensures Valid()
      ensures Stars() == AdvanceAll(old(Stars()), resets, width, height)
      ensures forall i :: 0 <= i < count ==> 0.0 < stars[i].z <= MaxDepth
    {
      for i := 0 to count
        invariant Valid()
        invariant forall j :: 0 <= j < i ==> stars[j] == Advance(old(stars[j]), resets[j].0, resets[j].1, width, height)
        invariant forall j :: i <= j < stars.Length ==> stars[j] == old(stars[j])
        invariant forall j :: 0 <= j < i ==> 0.0 < stars[j].z
      {
        UpdateStar(i, resets[i].0, resets[i].1);
      }
    }

    /**
     * `setStarCount(n)`: always leaves exactly `n` stars. A smaller `n` keeps the
     * first `n` stars in place; otherwise the whole field is regenerated (the old
     * stars are not kept).
     */
    method SetStarCount(n: nat, draws: seq<StarDraw>)
      requires Valid() && |draws| >= n && UnitDraws(draws)
      modifies this
      ensures Valid() && count == n
      ensures width == old(width) && height == old(height)
      ensures n < old(count) ==> stars == old(stars) && Stars() == old(Stars())[..n]
      ensures n >= old(count) ==> fresh(stars) && Stars() == CreateStars(n, width, height, draws)
    {
      if n < count {
        count := n;
      } else {
        CreateStarsNow(n, draws);
      }
    }
  }
}

=== FILE: wrappers.dfy ===
/** Optional values: JavaScript's `null`/`undefined` next to a present value. */
module Wrappers {
  datatype Option<+T> = None | Some(value: T)
}
